=== FILE: README.md ===
# Iodine protocol adapter, modelled in Dafny

This project models `Iodine::Protocol`, the per-connection object of the
Iodine server. A protocol object is created for every accepted socket. It
owns the socket and keeps an optional idle timeout and the time of its last
activity. It also holds two locks. The dispatch lock keeps two `on_message`
calls on the same connection apart. The send lock keeps two writes apart.
The reactor calls `call` when the socket is readable and calls `timeout?`
periodically. Application code calls `write`, `read`, `close` and `id`.
`Protocol.each` enumerates the live connections of one protocol class.

How the model is built:

- `socket.dfy` (module `IodineSocket`) is the IO object. It is seen only
  through `closed?`, `close`, `recv_nonblock` and `write`, and is abstracted
  as a closed flag, the bytes waiting to be received and the bytes written
  so far. A transport failure is a parameter: a `fault` flag for a receive,
  and for a write the number of bytes that went out before the failure.
- `protocol.dfy` (module `Iodine`) gives the value of a connection
  (`ConnState`) and one function per operation (`ReadStep`, `WriteStep`,
  `CallStep`, `TimeoutStep`, `CloseStep`, `Initial`). The class `Protocol`
  implements each operation step by step on its fields. Its constructor and
  its methods `Close`, `Read`, `Write`, `Call` and `CheckTimeout` are proved
  to agree with these functions; `Touch`, `SetTimeout`, `Id`, `Ping`,
  `OnOpen` and `OnMessage` state their effect directly. Locks are boolean
  fields. The clock is
  an integer parameter. Registration with the reactor and the callbacks
  `on_open`, `on_message` and `ping` are recorded as events. The callbacks
  that run under the dispatch lock require it to be held, and so does the
  IO write inside `write` for the send lock, so the verifier checks where
  they are called.
- `object_id.dfy` (module `ObjectIds`) renders the object id in
  hexadecimal, as `Integer#to_s(16)` does, and proves the rendering
  injective.
- `protocol_properties.dfy` (module `ProtocolProperties`) states properties
  of whole runs of operations on one connection, and of the registry
  filter. A run mixes dispatches, application reads and writes, timeout
  checks, closes, timeout changes and bytes arriving from the peer.

Two behaviours of the code worth noting:

- A failed `read` does not close the connection. `read` only turns every
  `StandardError` it rescues into `nil`.
- `read` stamps the activity time on every attempt, not only on a
  successful read.

## Model

| member | source | states |
|---|---|---|
| `Iodine.Protocol.constructor` | lib/iodine/protocol.rb:118-128 | starts with no timeout and both locks free; stamps the activity time; registers and runs `on_open` while holding the dispatch lock; `on_open` sees the stamped time; the lock is free afterwards |
| `Iodine.Initial` | lib/iodine/protocol.rb:118-128 | the state `initialize` leaves: no timeout, locks free, stamped at `now`, events `[Registered, Opened(now)]` |
| `Iodine.Protocol.Accept` | lib/iodine/protocol.rb:159-161 | a fresh connection of the receiving class, in the state `initialize` leaves |
| `Iodine.Protocol.SetTimeout` | lib/iodine/protocol.rb:29-31 | the timeout becomes the given value |
| `Iodine.Protocol.Touch` | lib/iodine/protocol.rb:166-168 | the last-activity time becomes `now` |
| `Iodine.Protocol.SwitchProtocol` | lib/iodine/protocol.rb:125 | registration with the reactor can only happen under the dispatch lock, and is recorded as the `Registered` event |
| `Iodine.Protocol.OnOpen` | lib/iodine/protocol.rb:35-36 | `on_open` can only run under the dispatch lock and records the activity time it saw |
| `Iodine.Protocol.OnMessage` | lib/iodine/protocol.rb:38-39 | `on_message` can only run under the dispatch lock; records the data; raises exactly when told to |
| `Iodine.Protocol.Ping` | lib/iodine/protocol.rb:52-54 | `ping` answers its class's reply, which is `false` for the base class |
| `IodineSocket.CloseSocket` | lib/iodine/protocol.rb:63 | closing leaves the socket closed and its buffers alone; closing a closed socket changes nothing |
| `IodineSocket.Socket.Close` | lib/iodine/protocol.rb:63 | the IO object's `close` |
| `Iodine.CloseStep` | lib/iodine/protocol.rb:62-65 | after `close` the socket is closed and nothing else has changed; on a closed socket `close` changes nothing at all |
| `Iodine.Protocol.Close` | lib/iodine/protocol.rb:62-65 | `close` is proved to do `CloseStep`; on a closed socket it leaves the IO object unchanged |
| `ProtocolProperties.CloseRepeated` | lib/iodine/protocol.rb:62-65 | calling `close` N >= 1 times has exactly the effect of one call |
| `IodineSocket.Recv` | lib/iodine/protocol.rb:71 | `recv_nonblock` raises on a closed socket or a failure, would block exactly when nothing is pending, and otherwise returns a non-empty front of the pending bytes of length min(size, pending) and removes it |
| `IodineSocket.Socket.RecvNonblock` | lib/iodine/protocol.rb:71 | the IO object's receive is proved to do `Recv` |
| `Iodine.ReadStep` | lib/iodine/protocol.rb:69-74 | `read` always stamps `now`; it answers nil exactly when the socket is closed, the receive fails or nothing is pending, and then leaves the socket alone; otherwise it answers min(`size`, pending) bytes which, followed by what remains pending, are the bytes that were pending; asking for at least what is pending answers all of it; no other field changes |
| `Iodine.Protocol.Read` | lib/iodine/protocol.rb:69-74 | `read` is proved to do `ReadStep` |
| `IodineSocket.WriteOut` | lib/iodine/protocol.rb:80 | the IO object's write raises exactly on a closed socket or a transport failure; a closed socket sends nothing, a failure may have sent a prefix of the data first; otherwise it sends all of the data and answers its length |
| `IodineSocket.Socket.Write` | lib/iodine/protocol.rb:80 | the IO object's write is proved to do `WriteOut` |
| `Iodine.WriteStep` | lib/iodine/protocol.rb:77-88 | `write` answers the byte count, appends the data to what was sent and stamps `now`; or, exactly when the socket is closed or the write fails, it answers nil, closes the connection and leaves the stamp alone, having sent at most a prefix of the data (nothing on a closed socket); the send lock is free afterwards; locks, timeout, events and pending bytes are untouched |
| `Iodine.Protocol.Write` | lib/iodine/protocol.rb:77-88 | `write` is proved to do `WriteStep`, taking and releasing the send lock around the IO write and closing after a failure |
| `Iodine.Protocol.SendLocked` | lib/iodine/protocol.rb:79-83 | the body of the `synchronize` block can only run under the send lock; it does the IO write and stamps `now` only when the write succeeded |
| `Iodine.CallStep` | lib/iodine/protocol.rb:133-144 | with the dispatch lock held `call` changes nothing; otherwise the lock ends up free, the stamp is `now`, and exactly one `on_message` event is added exactly when the read returned data, carrying a non-empty front of the pending bytes whose length is the smaller of the default read size (2097152 bytes) and what is pending, so all of them when they fit in one read; nothing is added when the read returned nil |
| `Iodine.Protocol.Call` | lib/iodine/protocol.rb:133-144 | `call` is proved to do `CallStep`; the dispatch lock is released on every path that took it, also when `on_message` raises; the exception leaves `call` exactly when the handler ran and raised |
| `ProtocolProperties.RunKeepsDispatchFree` | lib/iodine/protocol.rb:133-144 | from a free dispatch lock, any run leaves the lock free |
| `ProtocolProperties.RunWhileDispatchHeld` | lib/iodine/protocol.rb:134 | while another dispatch holds the lock, no run delivers anything to `on_message`; bytes leave the socket only through application reads |
| `ProtocolProperties.StepConservesBytes` | lib/iodine/protocol.rb:69-74 | no single operation loses, repeats or reorders an inbound byte: what it hands to `on_message` or to a reader, followed by what is pending, is what was pending followed by what the socket took in, which is what the peer sent while the socket is open and nothing once it is closed |
| `ProtocolProperties.StepDelivers` | lib/iodine/protocol.rb:136-140 | what `on_message` has received grows by exactly the bytes a dispatch hands over, and no other operation changes it |
| `ProtocolProperties.RunConservesBytes` | lib/iodine/protocol.rb:69-74 | over any run, the bytes handed to `on_message` and to application reads, in order, followed by what is pending, are what was pending followed by what the socket took in |
| `ProtocolProperties.RunReceivesWhileOpen` | lib/iodine/protocol.rb:62-65 | the socket takes in a prefix of what the peer sent during a run, namely what came before `close`; a run that ends with the socket open took in all of it |
| `ProtocolProperties.RunDeliversInOrder` | lib/iodine/protocol.rb:133-144 | over a run without application reads, what `on_message` has received followed by what is pending grows by exactly what the socket took in |
| `ProtocolProperties.LateArrivalIsDelivered` | lib/iodine/protocol.rb:133-144 | on an open socket with nothing pending, a dispatch delivers nothing; after up to 2097152 bytes arrive, the next fault-free dispatch hands all of them to `on_message` |
| `ProtocolProperties.StepAfterClose` | lib/iodine/protocol.rb:62-88 | on a closed connection no operation reopens the socket, hands anything over, takes anything in or sends anything |
| `ProtocolProperties.RunAfterClose` | lib/iodine/protocol.rb:62-88 | once closed, a connection stays closed through any run, nothing more is handed to `on_message` or to a reader, nothing more is taken in from the peer, and nothing more is sent |
| `ProtocolProperties.RunExtendsOutbound` | lib/iodine/protocol.rb:77-88 | bytes once sent stay sent: the sent bytes only grow |
| `ProtocolProperties.StepExtendsEvents` | lib/iodine/protocol.rb:133-152 | no operation removes or changes an event already recorded |
| `ProtocolProperties.RunExtendsEvents` | lib/iodine/protocol.rb:133-152 | no run removes or changes an event already recorded |
| `ProtocolProperties.OpenPrecedesMessages` | lib/iodine/protocol.rb:118-128 | after `initialize`, any run keeps registration and `on_open` first, ahead of every message, with both locks free |
| `Iodine.TimeoutStep` | lib/iodine/protocol.rb:150-152 | nothing happens unless a timeout is set, the send lock is free and `time - last_active > timeout`; when all three hold, `ping` runs and the connection is closed exactly when `ping` answers false; the answer is truthy exactly when `ping` ran and answered true, and then the connection is still idle at every later time |
| `Iodine.Protocol.CheckTimeout` | lib/iodine/protocol.rb:150-152 | `timeout?` is proved to do `TimeoutStep` with the class's `ping` answer |
| `ProtocolProperties.DefaultPingCloses` | lib/iodine/protocol.rb:52-54 | with the inherited `ping`, an expired idle timeout pings, answers falsy and closes the connection |
| `Iodine.Protocol.Id` | lib/iodine/protocol.rb:93-95 | `id` is the object id in lower-case hexadecimal, cached on first use and unchanged by later calls |
| `ObjectIds.Hex` | lib/iodine/protocol.rb:94 | `to_s(16)`: a non-empty string of hexadecimal digits, with no leading zero unless it is `"0"` |
| `ObjectIds.ParseHexOfHex` | lib/iodine/protocol.rb:94 | reading the hexadecimal rendering back gives the object id |
| `ObjectIds.HexInjective` | lib/iodine/protocol.rb:94 | two ids are equal exactly when the object ids are, so ids of distinct objects differ |
| `Iodine.Protocol.Each` | lib/iodine/protocol.rb:100-106 | enumerates exactly the registry members that are instances of the class or of a subclass, and no more elements than the registry has |
| `Iodine.Protocol.EachYield` | lib/iodine/protocol.rb:101-102 | the block form yields exactly the sequence `Each` returns, in the same order |
| `ProtocolProperties.EachAppend` | lib/iodine/protocol.rb:100-106 | filtering a concatenation filters each part, so registry order is kept |
| `ProtocolProperties.EachIdempotent` | lib/iodine/protocol.rb:100-106 | filtering twice by the same class is filtering once |
| `ProtocolProperties.EachKeepsAll` | lib/iodine/protocol.rb:100-106 | the filter returns the whole registry exactly when every member is an instance of the class |
| `ProtocolProperties.EachOfBaseIsEverything` | lib/iodine/protocol.rb:100-106 | `Iodine::Protocol.each` enumerates every connection |

## Left out

- Threads and `Mutex`: locks are boolean fields and every operation runs
  atomically. Blocking on a lock held by another thread, and contention
  between threads, are not modelled.
- Iodine.Protocol.Write: requires the send lock to be free. The real
  `synchronize` blocks until the lock is free, so the model starts where
  the acquisition has succeeded.
- Iodine.Protocol.Read: requires a positive size. A zero or negative size is
  not passed by any caller in this file and is not modelled.
- Iodine.ReadStep: requires a positive size, for the same reason.
- IodineSocket.Recv: requires a positive size, for the same reason.
- Real socket I/O: the IO object is a closed flag and two byte sequences.
  The peer closing its side (end of stream) is not modelled. Transport
  failures are parameters.
- `Iodine.time` is the `now`/`time` parameter. `Iodine.switch_protocol` is
  the `Registered` event. `Iodine.to_a` is the registry parameter of `Each`.
- The object id is passed in. The runtime's choice of object ids is not part
  of this model.
- What user callbacks do: `on_open`, `on_message` and `ping` are recorded as
  events. Any writes or closes they make themselves are not modelled. `ping`
  answers a fixed value per protocol class.
- Exceptions raised by `on_open` or `ping` are not modelled. An exception
  raised by `on_message` is a parameter of `Call`.
- `data.clear` after `on_message` only empties the string handed to the
  handler. The model records a copy, so aliasing of that string is not
  captured.
- `on_close` and `on_shutdown` are empty hooks that nothing in this file
  calls, so they are left out. The `disconnect` alias is the same method as
  `Close`.
- `@timeout ||= nil` keeps a timeout that a subclass set before calling
  `super`. The model always starts without a timeout. Timeouts and times are
  integers, while Ruby also allows floats.
- The TLS variant and its read-accumulation loop: its source is not part of
  this model.
- ext/iodine/http-protocol.h declares a struct and a constructor prototype
  only. It has no behaviour to model.

=== FILE: object_id.dfy ===
/**
 * A connection's id is its runtime object id written in lower-case
 * hexadecimal, as Ruby's `Integer#to_s(16)` writes it. The object id itself
 * is the runtime's business and is passed in; what is proved here is that
 * the rendering loses nothing, so distinct object ids give distinct ids.
 */
module ObjectIds {

  predicate IsHexDigit(c: char)
  {
    ('0' <= c <= '9') || ('a' <= c <= 'f')
  }

  function HexDigit(d: nat): (c: char)
    requires d < 16
    ensures IsHexDigit(c)
    ensures DigitValue(c) == d
  {
    if d < 10 then ('0' as int + d) as char else ('a' as int + d - 10) as char
  }

  function DigitValue(c: char): (d: nat)
    requires IsHexDigit(c)
    ensures d < 16
  {
    if c <= '9' then c as int - '0' as int else c as int - 'a' as int + 10
  }

  /** `n.to_s(16)`: most significant digit first, no leading zero except for 0 itself. */
  function Hex(n: nat): (s: string)
    ensures 0 < |s|
    ensures forall i :: 0 <= i < |s| ==> IsHexDigit(s[i])
    ensures 1 < |s| ==> s[0] != '0'
    decreases n
  {
    if n < 16 then [HexDigit(n)] else Hex(n / 16) + [HexDigit(n % 16)]
  }

  /** Reading a string of hexadecimal digits back as a number. */
  function ParseHex(s: string): nat
    requires forall i :: 0 <= i < |s| ==> IsHexDigit(s[i])
  {
    if s == [] then 0 else ParseHex(s[..|s| - 1]) * 16 + DigitValue(s[|s| - 1])
  }

  lemma {:induction false} ParseHexOfHex(n: nat)
    ensures ParseHex(Hex(n)) == n
    decreases n
  {
    var s := Hex(n);
    if n >= 16 {
      ParseHexOfHex(n / 16);
      assert s[..|s| - 1] == Hex(n / 16);
      assert s[|s| - 1] == HexDigit(n % 16);
    }
  }

  /** Distinct object ids are rendered as distinct strings. */
  lemma HexInjective(a: nat, b: nat)
    ensures Hex(a) == Hex(b) <==> a == b
  {
    ParseHexOfHex(a);
    ParseHexOfHex(b);
  }
}

=== FILE: protocol.dfy ===
/**
 * The per-connection protocol adapter, `Iodine::Protocol`.
 *
 * Each connection is a `Protocol` object that owns its socket, an optional
 * idle timeout, the time of its last activity and two locks: the dispatch
 * lock, which keeps two `on_message` calls on the same connection apart, and
 * the send lock, which keeps two writes apart. Locks are boolean fields, the
 * clock is an integer parameter, and the application callbacks (`on_open`,
 * `on_message`, `ping`) and the registration with the reactor are recorded
 * as events.
 *
 * The module first gives the value of a connection (`ConnState`) and one
 * function per operation saying what the operation does to that value; the
 * class `Protocol` then implements each operation step by step on its
 * fields. Its constructor and its methods `Close`, `Read`, `Write`, `Call`
 * and `CheckTimeout` are proved to agree with these functions; the smaller
 * methods (`Touch`, `SetTimeout`, `SwitchProtocol`, the callbacks, `Id`,
 * `SendLocked`, `EachYield`) state their effect directly.
 */
module Iodine {
  import opened IodineSocket
  import ObjectIds

  /** The default number of bytes `read` asks for (about 2MB). */
  const DefaultReadSize: nat := 2097152

  /** Ruby class names; a protocol class is known by its ancestor chain, itself first. */
  type ClassName = string

  const ProtocolClassName: ClassName := "Iodine::Protocol"

  /**
   * What a concrete protocol class contributes: its place in the class
   * hierarchy and the answer its `ping` gives.
   */
  datatype ProtocolClass = ProtocolClass(ancestors: seq<ClassName>, pingReply: bool)

  /** `Iodine::Protocol` itself, whose `ping` answers `false`. */
  const BaseProtocol: ProtocolClass := ProtocolClass([ProtocolClassName], false)

  /** What the connection has told the outside world, in order. */
  datatype Event =
    | Registered                    // `Iodine.switch_protocol io, self`
    | Opened(lastActive: int)       // `on_open`, with the activity stamp it saw
    | Message(data: seq<byte>)      // `on_message(data)`
    | Pinged                        // `ping`

  /** The value of a connection. */
  datatype ConnState = ConnState(
    io: SocketState,
    timeout: Option<int>,
    lastActive: int,
    dispatchHeld: bool,
    sendHeld: bool,
    events: seq<Event>)

  /** The state `initialize` leaves: stamped, unlocked, registered and opened. */
  function Initial(io: SocketState, now: int): (s: ConnState)
    ensures s.io == io && s.timeout.None? && s.lastActive == now
    ensures !s.dispatchHeld && !s.sendHeld
    ensures s.events == [Registered, Opened(now)]
  {
    ConnState(io, None, now, false, false, [Registered, Opened(now)])
  }

  /** `close`: closes the socket unless it is closed already; nothing else changes. */
  function CloseStep(s: ConnState): (t: ConnState)
    ensures t.io.closed
    ensures t == s.(io := t.io)
    ensures t.io.inbound == s.io.inbound && t.io.outbound == s.io.outbound
    ensures s.io.closed ==> t == s
  {
    s.(io := CloseSocket(s.io))
  }

  /**
   * `read(size)`: stamps the activity time, then receives; whatever the
   * receive raises becomes "no data". A failed read does not close the socket.
   */
  function ReadStep(s: ConnState, size: nat, now: int, fault: bool): (r: (Option<seq<byte>>, ConnState))
    requires size > 0
    ensures r.1 == s.(io := r.1.io, lastActive := now)
    ensures r.1.io.closed == s.io.closed && r.1.io.outbound == s.io.outbound
    ensures r.0.None? <==> s.io.closed || fault || s.io.inbound == []
    ensures r.0.None? ==> r.1.io == s.io
    ensures r.0.Some? ==> 0 < |r.0.value| <= size && r.0.value + r.1.io.inbound == s.io.inbound
    ensures r.0.Some? && |s.io.inbound| <= size ==> r.0.value == s.io.inbound && r.1.io.inbound == []
    ensures r.0.Some? ==> |r.0.value| == Min(size, |s.io.inbound|)
  {
    var rcv := Recv(s.io, size, fault);
    var data := if rcv.0.Received? then Some(rcv.0.bytes) else None;
    (data, s.(io := rcv.1, lastActive := now))
  }

  /**
   * `write(data)`: under the send lock, writes and stamps the activity time,
   * answering the byte count; if the write raises, the connection is closed
   * and the answer is nil, although part of the data may already have gone
   * out. The send lock is free afterwards either way.
   */
  function WriteStep(s: ConnState, data: seq<byte>, now: int, failAfter: Option<nat>): (r: (Option<nat>, ConnState))
    requires !s.sendHeld
    ensures !r.1.sendHeld
    ensures r.1.dispatchHeld == s.dispatchHeld && r.1.timeout == s.timeout && r.1.events == s.events
    ensures r.1.io.inbound == s.io.inbound
    ensures r.0.None? <==> s.io.closed || failAfter.Some?
    ensures r.0.Some? ==> r.0.value == |data| && r.1.lastActive == now
    ensures r.0.Some? ==> r.1.io.outbound == s.io.outbound + data && r.1.io.closed == s.io.closed
    ensures r.0.None? ==> r.1.io.closed && r.1.lastActive == s.lastActive
    ensures r.0.None? ==> s.io.outbound <= r.1.io.outbound <= s.io.outbound + data
    ensures s.io.closed ==> r.1.io.outbound == s.io.outbound
  {
    var w := WriteOut(s.io, data, failAfter);
    if w.0.Written? then (Some(w.0.count), s.(io := w.1, lastActive := now))
    else (None, CloseStep(s.(io := w.1)))
  }

  /**
   * `call`: if the dispatch lock is taken, nothing happens. Otherwise the lock
   * is taken, one read of the default size is made, `on_message` receives the
   * data if there is any, and the lock is released.
   */
  function CallStep(s: ConnState, now: int, fault: bool): (t: ConnState)
    ensures s.dispatchHeld ==> t == s
    ensures t.dispatchHeld == s.dispatchHeld
    ensures t.sendHeld == s.sendHeld && t.timeout == s.timeout
    ensures t.io.closed == s.io.closed && t.io.outbound == s.io.outbound
    ensures !s.dispatchHeld ==> t.lastActive == now
    ensures t.events == s.events <==> s.dispatchHeld || s.io.closed || fault || s.io.inbound == []
    ensures t.events == s.events ==> t.io.inbound == s.io.inbound
    ensures t.events != s.events ==>
      |t.events| == |s.events| + 1 && t.events[..|s.events|] == s.events &&
      t.events[|s.events|].Message? && t.events[|s.events|].data != [] &&
      t.events[|s.events|].data + t.io.inbound == s.io.inbound &&
      |t.events[|s.events|].data| == Min(DefaultReadSize, |s.io.inbound|)
    ensures !s.dispatchHeld && !s.io.closed && !fault && |s.io.inbound| <= DefaultReadSize ==> t.io.inbound == []
  {
    if s.dispatchHeld then s
    else
      var rd := ReadStep(s.(dispatchHeld := true), DefaultReadSize, now, fault);
      var handled := if rd.0.Some? then rd.1.(events := rd.1.events + [Message(rd.0.value)]) else rd.1;
      handled.(dispatchHeld := false)
  }

  /** The three-way guard of `timeout?`: a timeout is set, no write is in flight, and it has passed. */
  predicate IdleExpired(s: ConnState, time: int)
  {
    s.timeout.Some? && !s.sendHeld && time - s.lastActive > s.timeout.value
  }

  /**
   * `timeout?(time)` for a class whose `ping` answers `reply`: when the guard
   * holds, `ping` is called, and the connection is closed exactly when it
   * answers false. The first component is whether the answer is truthy.
   */
  function TimeoutStep(s: ConnState, time: int, reply: bool): (r: (bool, ConnState))
    ensures !IdleExpired(s, time) ==> r == (false, s)
    ensures IdleExpired(s, time) ==> r.1.events == s.events + [Pinged]
    ensures IdleExpired(s, time) ==> (r.1.io.closed <==> s.io.closed || !reply)
    ensures r.0 <==> IdleExpired(s, time) && reply
    ensures r.1 == s.(io := r.1.io, events := r.1.events)
    ensures r.1.io.inbound == s.io.inbound && r.1.io.outbound == s.io.outbound
    ensures r.0 ==> forall later :: later >= time ==> IdleExpired(r.1, later)
  {
    if !IdleExpired(s, time) then (false, s)
    else
      var pinged := s.(events := s.events + [Pinged]);
      if reply then (true, pinged) else (false, CloseStep(pinged))
  }

  /** Whether a connection is an instance of class `k` or of one of its subclasses (`is_a?`). */
  predicate IsA(p: Protocol, k: ClassName)
  {
    k in p.kind.ancestors
  }

  class Protocol {
    /** The socket this connection owns (`attr_reader :io`). */
    const io: Socket
    const kind: ProtocolClass
    /** The runtime's identity for this object. */
    const objectId: nat

    var timeout: Option<int>
    var lastActive: int
    var dispatchHeld: bool
    var sendHeld: bool
    var events: seq<Event>
    /** `@id`, computed on first use. */
    var idCache: Option<string>

    ghost predicate Valid()
      reads this`idCache
    {
      idCache.Some? ==> idCache.value == ObjectIds.Hex(objectId)
    }

    ghost function State(): ConnState
      reads this, io
    {
      ConnState(io.Snapshot(), timeout, lastActive, dispatchHeld, sendHeld, events)
    }

    /**
     * `initialize(io)`: no timeout, both locks free, the activity time
     * stamped; then, holding the dispatch lock, registration with the reactor
     * and `on_open`.
     */
    constructor (io: Socket, kind: ProtocolClass, objectId: nat, now: int)
      requires ProtocolClassName in kind.ancestors
      ensures this.io == io && this.kind == kind && this.objectId == objectId
      ensures Valid() && idCache.None?
      ensures State() == Initial(io.Snapshot(), now)
    {
      this.io := io;
      this.kind := kind;
      this.objectId := objectId;
      timeout := None;
      sendHeld := false;
      dispatchHeld := false;
      events := [];
      idCache := None;
      new;
      Touch(now);
      dispatchHeld := true;
      SwitchProtocol();
      OnOpen();
      dispatchHeld := false;
    }

    /** `self.accept(io)`: a new connection of the receiving class. */
    static method Accept(io: Socket, kind: ProtocolClass, objectId: nat, now: int) returns (p: Protocol)
      requires ProtocolClassName in kind.ancestors
      ensures fresh(p) && p.io == io && p.kind == kind && p.objectId == objectId
      ensures p.Valid() && p.State() == Initial(io.Snapshot(), now)
    {
      p := new Protocol(io, kind, objectId, now);
    }

    /** `set_timeout(seconds)`. */
    method SetTimeout(seconds: Option<int>)
      modifies this`timeout
      ensures timeout == seconds
    {
      timeout := seconds;
    }

    /** `touch`: the connection was active at `now`. */
    method Touch(now: int)
      modifies this`lastActive
      ensures lastActive == now
    {
      lastActive := now;
    }

    /** Registration with the reactor; happens only under the dispatch lock. */
    method SwitchProtocol()
      requires dispatchHeld
      modifies this`events
      ensures events == old(events) + [Registered]
    {
      events := events + [Registered];
    }

    /** The `on_open` callback; runs only under the dispatch lock. */
    method OnOpen()
      requires dispatchHeld
      modifies this`events
      ensures events == old(events) + [Opened(lastActive)]
    {
      events := events + [Opened(lastActive)];
    }

    /** The `on_message` callback; runs only under the dispatch lock, and may raise. */
    method OnMessage(data: seq<byte>, raises: bool) returns (raised: bool)
      requires dispatchHeld
      modifies this`events
      ensures events == old(events) + [Message(data)]
      ensures raised == raises
    {
      events := events + [Message(data)];
      raised := raises;
    }

    /** The `ping` callback: the class's answer. */
    method Ping() returns (alive: bool)
      modifies this`events
      ensures events == old(events) + [Pinged]
      ensures alive == kind.pingReply
    {
      events := events + [Pinged];
      alive := kind.pingReply;
    }

    /** `close`: closes the socket unless it is closed already, and answers nil. */
    method Close()
      modifies io
      ensures io.closed
      ensures old(io.closed) ==> unchanged(io)
      ensures State() == CloseStep(old(State()))
    {
      if !io.closed {
        io.Close();
      }
    }

    /** `read(size)`. */
    method Read(size: nat, now: int, fault: bool) returns (data: Option<seq<byte>>)
      requires size > 0
      modifies this`lastActive, io
      ensures lastActive == now
      ensures (data, State()) == ReadStep(old(State()), size, now, fault)
    {
      Touch(now);
      var r := io.RecvNonblock(size, fault);
      data := if r.Received? then Some(r.bytes) else None;
    }

    /**
     * `write(data)`. The send lock is taken by a blocking acquire, so the
     * model starts at the point where it is free.
     */
    method Write(data: seq<byte>, now: int, failAfter: Option<nat>) returns (r: Option<nat>)
      requires !sendHeld
      modifies this`sendHeld, this`lastActive, io
      ensures !sendHeld
      ensures r.None? ==> io.closed
      ensures (r, State()) == WriteStep(old(State()), data, now, failAfter)
    {
      sendHeld := true;
      var w := SendLocked(data, now, failAfter);
      r := if w.Written? then Some(w.count) else None;
      sendHeld := false;
      if r.None? {
        Close();
      }
    }

    /**
     * The body of the `synchronize` block in `write`: the IO write and, when
     * it succeeds, `touch`. It runs only under the send lock.
     */
    method SendLocked(data: seq<byte>, now: int, failAfter: Option<nat>) returns (w: WriteResult)
      requires sendHeld
      modifies this`lastActive, io
      ensures (w, io.Snapshot()) == WriteOut(old(io.Snapshot()), data, failAfter)
      ensures lastActive == if w.Written? then now else old(lastActive)
    {
      w := io.Write(data, failAfter);
      if w.Written? {
        Touch(now);
      }
    }

    /**
     * `call`: the reactor's entry point when the socket is readable.
     * `handlerRaises` says whether `on_message` raises; the answer says
     * whether the exception left `call`. The dispatch lock is released on
     * every path that took it.
     */
    method Call(now: int, fault: bool, handlerRaises: bool) returns (raised: bool)
      modifies this`dispatchHeld, this`events, this`lastActive, io
      ensures old(dispatchHeld) ==> unchanged(this, io) && !raised
      ensures !dispatchHeld || old(dispatchHeld)
      ensures raised <==> handlerRaises && events != old(events)
      ensures State() == CallStep(old(State()), now, fault)
    {
      raised := false;
      if dispatchHeld {
        return;
      }
      dispatchHeld := true;
      var data := Read(DefaultReadSize, now, fault);
      if data.Some? {
        raised := OnMessage(data.value, handlerRaises);
      }
      dispatchHeld := false;
    }

    /** `timeout?(time)`: the answer is whether the result is truthy. */
    method CheckTimeout(time: int) returns (r: bool)
      modifies this`events, io
      ensures (r, State()) == TimeoutStep(old(State()), time, kind.pingReply)
    {
      r := false;
      if timeout.Some? && !sendHeld && time - lastActive > timeout.value {
        var alive := Ping();
        if alive {
          r := true;
        } else {
          Close();
        }
      }
    }

    /** `id`: the object id in hexadecimal, computed once and then kept. */
    method Id() returns (s: string)
      requires Valid()
      modifies this`idCache
      ensures Valid()
      ensures s == ObjectIds.Hex(objectId) && idCache == Some(s)
      ensures old(idCache).Some? ==> idCache == old(idCache)
    {
      if idCache.None? {
        idCache := Some(ObjectIds.Hex(objectId));
      }
      s := idCache.value;
    }

    /**
     * `self.each` without a block: the registry's connections that are
     * instances of class `k`, in registry order.
     */
    static function Each(registry: seq<Protocol>, k: ClassName): (r: seq<Protocol>)
      ensures |r| <= |registry|
      ensures forall p :: p in r ==> p in registry && IsA(p, k)
      ensures forall p :: p in registry && IsA(p, k) ==> p in r
    {
      if registry == [] then []
      else
        var last := registry[|registry| - 1];
        Each(registry[..|registry| - 1], k) + (if IsA(last, k) then [last] else [])
    }

    /** `self.each` with a block: yields, in registry order, what `Each` selects. */
    static method EachYield(registry: seq<Protocol>, k: ClassName) returns (yielded: seq<Protocol>)
      ensures yielded == Each(registry, k)
    {
      yielded := [];
      var i := 0;
      while i < |registry|
        invariant 0 <= i <= |registry|
        invariant yielded == Each(registry[..i], k)
      {
        assert registry[..i + 1][..i] == registry[..i];
        if IsA(registry[i], k) {
          yielded := yielded + [registry[i]];
        }
        i := i + 1;
      }
      assert registry[..i] == registry;
    }
  }
}

=== FILE: protocol_properties.dfy ===
/**
 * Properties of a connection over a whole run of operations, and of the
 * registry filter behind `Protocol.each`.
 *
 * A run is what the reactor, the application and the peer do to one
 * connection, one operation at a time: dispatches (`call`), application
 * reads and writes, timeout checks, closes, timeout changes, and bytes
 * arriving from the peer. Each operation acts on the connection's value as
 * the corresponding function of module `Iodine` says, which is also what
 * the corresponding method of `Iodine.Protocol` is proved to do.
 */
module ProtocolProperties {
  import opened IodineSocket
  import opened Iodine

  type Size = n: nat | n > 0 witness 1

  datatype Op =
    | Dispatch(now: int, fault: bool)
    | AppRead(size: Size, now: int, fault: bool)
    | Send(data: seq<byte>, now: int, failAfter: Option<nat>)
    | CheckTimeout(time: int)
    | Disconnect
    | ChangeTimeout(seconds: Option<int>)
    | Arrive(bytes: seq<byte>)

  /**
   * The new state after an operation, the bytes it handed to the
   * application (to `on_message` for a dispatch, to the caller for a read),
   * and the bytes the socket took in from the peer.
   */
  datatype Outcome = Outcome(state: ConnState, handed: seq<byte>, received: seq<byte>)

  /** The data of the `on_message` event that `t` has beyond `s`, if any. */
  function NewMessage(s: ConnState, t: ConnState): seq<byte>
  {
    if |t.events| > |s.events| && t.events[|t.events| - 1].Message? then t.events[|t.events| - 1].data else []
  }

  /** One operation on a connection whose class's `ping` answers `reply`. */
  function Step(s: ConnState, reply: bool, op: Op): (o: Outcome)
    requires !s.sendHeld
    ensures !o.state.sendHeld
  {
    match op
    case Dispatch(now, fault) =>
      var t := CallStep(s, now, fault);
      Outcome(t, NewMessage(s, t), [])
    case AppRead(size, now, fault) =>
      var r := ReadStep(s, size, now, fault);
      Outcome(r.1, if r.0.Some? then r.0.value else [], [])
    case Send(data, now, failAfter) => Outcome(WriteStep(s, data, now, failAfter).1, [], [])
    case CheckTimeout(time) => Outcome(TimeoutStep(s, time, reply).1, [], [])
    case Disconnect => Outcome(CloseStep(s), [], [])
    case ChangeTimeout(seconds) => Outcome(s.(timeout := seconds), [], [])
    case Arrive(bytes) => Outcome(s.(io := PeerSends(s.io, bytes)), [], if s.io.closed then [] else bytes)
  }

  /**
   * A whole run: the final state, everything handed to the application and
   * everything the socket took in, in order.
   */
  function Run(s: ConnState, reply: bool, ops: seq<Op>): (o: Outcome)
    requires !s.sendHeld
    ensures !o.state.sendHeld
    decreases |ops|
  {
    if ops == [] then Outcome(s, [], [])
    else
      var first := Step(s, reply, ops[0]);
      var rest := Run(first.state, reply, ops[1..]);
      Outcome(rest.state, first.handed + rest.handed, first.received + rest.received)
  }

  /** The bytes the peer sent during a run, whether or not the socket took them in. */
  function Arrived(ops: seq<Op>): seq<byte>
    decreases |ops|
  {
    if ops == [] then [] else (if ops[0].Arrive? then ops[0].bytes else []) + Arrived(ops[1..])
  }

  predicate NoAppReads(ops: seq<Op>)
  {
    forall i :: 0 <= i < |ops| ==> !ops[i].AppRead?
  }

  /** The bytes handed to `on_message`, in the order they were handed over. */
  function Delivered(events: seq<Event>): seq<byte>
  {
    if events == [] then []
    else
      var last := events[|events| - 1];
      Delivered(events[..|events| - 1]) + (if last.Message? then last.data else [])
  }

  function Repeat(op: Op, n: nat): (ops: seq<Op>)
    ensures |ops| == n
    ensures forall i :: 0 <= i < n ==> ops[i] == op
  {
    if n == 0 then [] else [op] + Repeat(op, n - 1)
  }

  /** Handing over in two stages: the bytes of both stages, then what is left. */
  lemma Chain(h1: seq<byte>, h2: seq<byte>, i0: seq<byte>, i1: seq<byte>, i2: seq<byte>, a1: seq<byte>, a2: seq<byte>)
    requires h1 + i1 == i0 + a1 && h2 + i2 == i1 + a2
    ensures (h1 + h2) + i2 == i0 + (a1 + a2)
  {
    calc {
      (h1 + h2) + i2;
      h1 + (h2 + i2);
      h1 + (i1 + a2);
      (h1 + i1) + a2;
      (i0 + a1) + a2;
    }
  }

  /**
   * Delivering in two stages: received bytes `d`, pending bytes `i`,
   * arrived bytes `a`, with the first stage handing over `h`.
   */
  lemma Stack(d0: seq<byte>, d1: seq<byte>, d2: seq<byte>, h: seq<byte>,
              i0: seq<byte>, i1: seq<byte>, i2: seq<byte>, a1: seq<byte>, a2: seq<byte>)
    requires d1 == d0 + h && h + i1 == i0 + a1 && d2 + i2 == d1 + i1 + a2
    ensures d2 + i2 == d0 + i0 + (a1 + a2)
  {
    calc {
      d2 + i2;
      (d0 + h) + i1 + a2;
      d0 + (h + i1) + a2;
      d0 + (i0 + a1) + a2;
    }
  }

  // ---------------------------------------------------------------------
  // One step

  /** No step takes back what the connection has already told the outside world. */
  lemma StepExtendsEvents(s: ConnState, reply: bool, op: Op)
    requires !s.sendHeld
    ensures s.events <= Step(s, reply, op).state.events
  {
  }

  /**
   * No step loses, repeats or reorders an inbound byte: what it hands to the
   * application followed by what is still pending is what was pending
   * followed by what the socket took in, which is what the peer sent
   * while the socket is open and nothing once it is closed.
   */
  lemma StepConservesBytes(s: ConnState, reply: bool, op: Op)
    requires !s.sendHeld
    ensures var o := Step(s, reply, op);
      o.handed + o.state.io.inbound == s.io.inbound + o.received &&
      o.received == (if op.Arrive? && !s.io.closed then op.bytes else [])
  {
  }

  /** Exactly the bytes a dispatch hands over are added to what `on_message` has received. */
  lemma StepDelivers(s: ConnState, reply: bool, op: Op)
    requires !s.sendHeld
    ensures var o := Step(s, reply, op);
      Delivered(o.state.events) == Delivered(s.events) + (if op.Dispatch? then o.handed else [])
  {
    var t := Step(s, reply, op).state;
    if |t.events| > |s.events| {
      var e := t.events[|t.events| - 1];
      assert t.events == s.events + [e];
      assert t.events[..|t.events| - 1] == s.events;
    }
  }

  /**
   * On a closed connection no step reopens the socket, hands anything over,
   * takes anything in or sends anything.
   */
  lemma StepAfterClose(s: ConnState, reply: bool, op: Op)
    requires !s.sendHeld && s.io.closed
    ensures var o := Step(s, reply, op);
      o.state.io.closed && o.state.io.outbound == s.io.outbound && o.handed == [] && o.received == [] &&
      Delivered(o.state.events) == Delivered(s.events)
  {
    StepDelivers(s, reply, op);
  }

  // ---------------------------------------------------------------------
  // Whole runs

  /** Starting with a free dispatch lock, every run leaves it free. */
  lemma {:induction false} RunKeepsDispatchFree(s: ConnState, reply: bool, ops: seq<Op>)
    requires !s.sendHeld && !s.dispatchHeld
    ensures !Run(s, reply, ops).state.dispatchHeld
    decreases |ops|
  {
    if ops != [] {
      RunKeepsDispatchFree(Step(s, reply, ops[0]).state, reply, ops[1..]);
    }
  }

  /**
   * While another dispatch holds the lock, no run delivers anything to
   * `on_message`; bytes leave the socket only through application reads.
   */
  lemma {:induction false} RunWhileDispatchHeld(s: ConnState, reply: bool, ops: seq<Op>)
    requires !s.sendHeld && s.dispatchHeld
    ensures var o := Run(s, reply, ops);
      o.state.dispatchHeld && Delivered(o.state.events) == Delivered(s.events) &&
      (NoAppReads(ops) ==> o.handed == [])
    decreases |ops|
  {
    if ops != [] {
      var u := Step(s, reply, ops[0]).state;
      StepDelivers(s, reply, ops[0]);
      RunWhileDispatchHeld(u, reply, ops[1..]);
      assert NoAppReads(ops) ==> NoAppReads(ops[1..]) by {
        if NoAppReads(ops) {
          forall i | 0 <= i < |ops[1..]| ensures !ops[1..][i].AppRead? {
            assert ops[1..][i] == ops[i + 1];
          }
        }
      }
    }
  }

  lemma {:induction false} RunExtendsEvents(s: ConnState, reply: bool, ops: seq<Op>)
    requires !s.sendHeld
    ensures s.events <= Run(s, reply, ops).state.events
    decreases |ops|
  {
    if ops != [] {
      StepExtendsEvents(s, reply, ops[0]);
      RunExtendsEvents(Step(s, reply, ops[0]).state, reply, ops[1..]);
    }
  }

  /**
   * Over any run, the bytes handed to `on_message` and to application reads,
   * in the order they were handed over, followed by what is still pending,
   * are what was pending followed by what the socket took in.
   */
  lemma {:induction false} RunConservesBytes(s: ConnState, reply: bool, ops: seq<Op>)
    requires !s.sendHeld
    ensures var o := Run(s, reply, ops);
      o.handed + o.state.io.inbound == s.io.inbound + o.received
    decreases |ops|
  {
    if ops != [] {
      var first := Step(s, reply, ops[0]);
      var rest := Run(first.state, reply, ops[1..]);
      StepConservesBytes(s, reply, ops[0]);
      RunConservesBytes(first.state, reply, ops[1..]);
      Chain(first.handed, rest.handed, s.io.inbound, first.state.io.inbound, rest.state.io.inbound,
            first.received, rest.received);
    }
  }

  /**
   * The socket takes in a prefix of what the peer sent: everything sent
   * before it was closed. A run that ends with the socket open took in
   * everything the peer sent.
   */
  lemma {:induction false} RunReceivesWhileOpen(s: ConnState, reply: bool, ops: seq<Op>)
    requires !s.sendHeld
    ensures var o := Run(s, reply, ops);
      o.received <= Arrived(ops) &&
      (!o.state.io.closed ==> o.received == Arrived(ops))
    decreases |ops|
  {
    if ops != [] {
      var first := Step(s, reply, ops[0]);
      var rest := Run(first.state, reply, ops[1..]);
      var arrivedFirst := if ops[0].Arrive? then ops[0].bytes else [];
      StepConservesBytes(s, reply, ops[0]);
      RunReceivesWhileOpen(first.state, reply, ops[1..]);
      if first.received == arrivedFirst {
        assert Arrived(ops) == arrivedFirst + Arrived(ops[1..]);
      } else {
        assert s.io.closed;
        StepAfterClose(s, reply, ops[0]);
        RunAfterClose(first.state, reply, ops[1..]);
      }
    }
  }

  /**
   * In a run without application reads, what `on_message` has received
   * followed by what is pending is what it had received, followed by what
   * was pending, followed by what the socket took in.
   */
  lemma {:induction false} RunDeliversInOrder(s: ConnState, reply: bool, ops: seq<Op>)
    requires !s.sendHeld && NoAppReads(ops)
    ensures var o := Run(s, reply, ops);
      Delivered(o.state.events) + o.state.io.inbound == Delivered(s.events) + s.io.inbound + o.received
    decreases |ops|
  {
    if ops != [] {
      var first := Step(s, reply, ops[0]);
      var rest := Run(first.state, reply, ops[1..]);
      var t := rest.state;
      assert !ops[0].AppRead?;
      StepDelivers(s, reply, ops[0]);
      StepConservesBytes(s, reply, ops[0]);
      assert NoAppReads(ops[1..]) by {
        forall i | 0 <= i < |ops[1..]| ensures !ops[1..][i].AppRead? {
          assert ops[1..][i] == ops[i + 1];
        }
      }
      RunDeliversInOrder(first.state, reply, ops[1..]);
      assert Delivered(first.state.events) == Delivered(s.events) + first.handed;
      Stack(Delivered(s.events), Delivered(first.state.events), Delivered(t.events), first.handed,
            s.io.inbound, first.state.io.inbound, t.io.inbound, first.received, rest.received);
    }
  }

  /**
   * A dispatch that finds nothing delivers nothing; once up to one read's
   * worth of bytes arrives on the open socket, the next fault-free dispatch
   * hands all of them to `on_message`.
   */
  lemma LateArrivalIsDelivered(s: ConnState, reply: bool, t1: int, t2: int, bytes: seq<byte>)
    requires !s.sendHeld && !s.dispatchHeld && !s.io.closed && s.io.inbound == []
    requires 0 < |bytes| <= DefaultReadSize
    ensures var o := Run(s, reply, [Dispatch(t1, false), Arrive(bytes), Dispatch(t2, false)]);
      o.handed == bytes && o.received == bytes && o.state.io.inbound == [] &&
      Delivered(o.state.events) == Delivered(s.events) + bytes
  {
    var ops := [Dispatch(t1, false), Arrive(bytes), Dispatch(t2, false)];
    var u := CallStep(s, t1, false);
    var v := u.(io := PeerSends(u.io, bytes));
    var w := CallStep(v, t2, false);
    assert u.events == s.events && u.io.inbound == [] && NewMessage(s, u) == [];
    assert v.io.inbound == bytes;
    assert w.events != v.events && w.io.inbound == [];
    assert NewMessage(v, w) == bytes;
    StepDelivers(v, reply, Dispatch(t2, false));
    assert ops[1..] == [Arrive(bytes), Dispatch(t2, false)] && ops[1..][1..] == [Dispatch(t2, false)];
    assert Run(w, reply, []) == Outcome(w, [], []);
    assert Run(v, reply, ops[1..][1..]) == Outcome(w, bytes, []);
    assert Run(u, reply, ops[1..]) == Outcome(w, bytes, bytes);
  }

  /** Once closed, a connection stays closed, and nothing more is handed over, taken in or sent. */
  lemma {:induction false} RunAfterClose(s: ConnState, reply: bool, ops: seq<Op>)
    requires !s.sendHeld && s.io.closed
    ensures var o := Run(s, reply, ops);
      o.state.io.closed && o.state.io.outbound == s.io.outbound && o.handed == [] && o.received == [] &&
      Delivered(o.state.events) == Delivered(s.events)
    decreases |ops|
  {
    if ops != [] {
      StepAfterClose(s, reply, ops[0]);
      RunAfterClose(Step(s, reply, ops[0]).state, reply, ops[1..]);
    }
  }

  /** What has been written stays written: the sent bytes only grow. */
  lemma {:induction false} RunExtendsOutbound(s: ConnState, reply: bool, ops: seq<Op>)
    requires !s.sendHeld
    ensures s.io.outbound <= Run(s, reply, ops).state.io.outbound
    decreases |ops|
  {
    if ops != [] {
      var u := Step(s, reply, ops[0]).state;
      assert s.io.outbound <= u.io.outbound;
      RunExtendsOutbound(u, reply, ops[1..]);
    }
  }

  /** Closing N >= 1 times is the same as closing once. */
  lemma {:induction false} CloseRepeated(s: ConnState, reply: bool, n: nat)
    requires !s.sendHeld && n >= 1
    ensures Run(s, reply, Repeat(Disconnect, n)) == Outcome(CloseStep(s), [], [])
    decreases n
  {
    var ops := Repeat(Disconnect, n);
    assert ops[0] == Disconnect && ops[1..] == Repeat(Disconnect, n - 1);
    if n > 1 {
      CloseRepeated(CloseStep(s), reply, n - 1);
    } else {
      assert Run(CloseStep(s), reply, []) == Outcome(CloseStep(s), [], []);
    }
  }

  /**
   * From the moment `initialize` returns, every run keeps registration and
   * `on_open` (which saw the stamped activity time) ahead of any message.
   */
  lemma OpenPrecedesMessages(io: SocketState, now: int, reply: bool, ops: seq<Op>)
    ensures var t := Run(Initial(io, now), reply, ops).state;
      |t.events| >= 2 && t.events[0] == Registered && t.events[1] == Opened(now) &&
      !t.events[0].Message? && !t.events[1].Message? &&
      !t.dispatchHeld && !t.sendHeld
  {
    RunExtendsEvents(Initial(io, now), reply, ops);
    RunKeepsDispatchFree(Initial(io, now), reply, ops);
  }

  /** With the inherited `ping`, an expired idle timeout always closes the connection. */
  lemma DefaultPingCloses(s: ConnState, time: int)
    requires IdleExpired(s, time)
    ensures var r := TimeoutStep(s, time, BaseProtocol.pingReply);
      !r.0 && r.1.io.closed && r.1.events == s.events + [Pinged]
  {
  }

  // ---------------------------------------------------------------------
  // The registry filter

  /** Filtering a concatenation filters each part: registry order is kept. */
  lemma {:induction false} EachAppend(a: seq<Protocol>, b: seq<Protocol>, k: ClassName)
    ensures Protocol.Each(a + b, k) == Protocol.Each(a, k) + Protocol.Each(b, k)
    decreases |b|
  {
    if b == [] {
      assert a + b == a;
    } else {
      var b' := b[..|b| - 1];
      var last := b[|b| - 1];
      assert (a + b)[..|a + b| - 1] == a + b';
      EachAppend(a, b', k);
    }
  }

  /** Filtering twice by the same class is filtering once. */
  lemma {:induction false} EachIdempotent(registry: seq<Protocol>, k: ClassName)
    ensures Protocol.Each(Protocol.Each(registry, k), k) == Protocol.Each(registry, k)
    decreases |registry|
  {
    if registry != [] {
      var init := registry[..|registry| - 1];
      var last := registry[|registry| - 1];
      EachIdempotent(init, k);
      EachAppend(Protocol.Each(init, k), if IsA(last, k) then [last] else [], k);
    }
  }

  /** The filter keeps the whole registry exactly when every member is of class `k`. */
  lemma {:induction false} EachKeepsAll(registry: seq<Protocol>, k: ClassName)
    ensures Protocol.Each(registry, k) == registry <==> forall p :: p in registry ==> IsA(p, k)
    decreases |registry|
  {
    if registry != [] {
      var init := registry[..|registry| - 1];
      var last := registry[|registry| - 1];
      assert registry == init + [last];
      EachKeepsAll(init, k);
      if forall p :: p in registry ==> IsA(p, k) {
        assert forall p :: p in init ==> p in registry;
      }
    }
  }

  /** `Iodine::Protocol.each` enumerates every connection of the registry. */
  lemma EachOfBaseIsEverything(registry: seq<Protocol>)
    requires forall p :: p in registry ==> ProtocolClassName in p.kind.ancestors
    ensures Protocol.Each(registry, ProtocolClassName) == registry
  {
  }
}

=== FILE: socket.dfy ===
/**
 * The connection's IO object, seen only through the four operations the
 * protocol adapter uses on it: `closed?`, `close`, `recv_nonblock` and
 * `write`. The socket is abstracted as a closed flag, the bytes the peer
 * has sent and that are waiting to be received, and the bytes written so
 * far. A transport failure (connection reset, broken pipe) is not chosen by
 * the model: it is passed in, as a `fault` flag for a receive and as the
 * number of bytes that went out before the failure for a write.
 */
module IodineSocket {

  type byte = b: int | 0 <= b < 256

  datatype Option<T> = None | Some(value: T)

  /** The abstract value of a socket. */
  datatype SocketState = SocketState(closed: bool, inbound: seq<byte>, outbound: seq<byte>)

  /** What `recv_nonblock` produces: bytes, or one of the two exceptions it raises. */
  datatype RecvResult =
    | Received(bytes: seq<byte>)
    | WouldBlock      // IO::WaitReadable: nothing is available yet
    | RecvError       // IOError on a closed stream, or a transport failure

  /** What `write` produces: the number of bytes written, or an exception. */
  datatype WriteResult = Written(count: nat) | WriteError

  function Min(a: nat, b: nat): nat { if a <= b then a else b }

  /** Closing a socket; closing a closed one changes nothing. */
  function CloseSocket(io: SocketState): (r: SocketState)
    ensures r.closed
    ensures r.inbound == io.inbound && r.outbound == io.outbound
    ensures io.closed ==> r == io
  {
    io.(closed := true)
  }

  /**
   * A non-blocking receive of at most `size` bytes: the front of the pending
   * bytes, removed from the socket. A closed socket or a transport failure
   * raises; no pending bytes means the receive would block.
   */
  function Recv(io: SocketState, size: nat, fault: bool): (r: (RecvResult, SocketState))
    requires size > 0
    ensures r.1.closed == io.closed && r.1.outbound == io.outbound
    ensures r.0.RecvError? <==> io.closed || fault
    ensures r.0.WouldBlock? <==> !io.closed && !fault && io.inbound == []
    ensures r.0.Received? ==> 0 < |r.0.bytes| <= size && r.0.bytes + r.1.inbound == io.inbound
    ensures r.0.Received? ==> |r.0.bytes| == Min(size, |io.inbound|)
    ensures !r.0.Received? ==> r.1 == io
  {
    if io.closed || fault then (RecvError, io)
    else if io.inbound == [] then (WouldBlock, io)
    else
      var n := Min(size, |io.inbound|);
      assert io.inbound[..n] + io.inbound[n..] == io.inbound;
      (Received(io.inbound[..n]), io.(inbound := io.inbound[n..]))
  }

  /**
   * A blocking write of all of `data`, which goes out in as many pieces as
   * the transport takes. `failAfter` is the transport failure, if any: the
   * number of bytes that went out before the transport raised (a broken pipe
   * or a reset). Writing to a closed socket raises before anything goes out.
   */
  function WriteOut(io: SocketState, data: seq<byte>, failAfter: Option<nat>): (r: (WriteResult, SocketState))
    ensures r.1.closed == io.closed && r.1.inbound == io.inbound
    ensures r.0.WriteError? <==> io.closed || failAfter.Some?
    ensures r.0.Written? ==> r.0.count == |data| && r.1.outbound == io.outbound + data
    ensures r.0.WriteError? ==> io.outbound <= r.1.outbound <= io.outbound + data
    ensures r.0.WriteError? && failAfter.Some? && !io.closed ==>
      r.1.outbound == io.outbound + data[..Min(failAfter.value, |data|)]
    ensures io.closed ==> r.1 == io
  {
    if io.closed then (WriteError, io)
    else if failAfter.Some? then
      var sent := data[..Min(failAfter.value, |data|)];
      assert io.outbound + data == (io.outbound + sent) + data[|sent|..];
      (WriteError, io.(outbound := io.outbound + sent))
    else (Written(|data|), io.(outbound := io.outbound + data))
  }

  /**
   * The peer sends `bytes`: on an open socket they join the end of what is
   * waiting to be received; a socket closed on this side takes in nothing.
   */
  function PeerSends(io: SocketState, bytes: seq<byte>): (r: SocketState)
    ensures r.closed == io.closed && r.outbound == io.outbound
    ensures !io.closed ==> io.inbound <= r.inbound && r.inbound[|io.inbound|..] == bytes
    ensures io.closed ==> r == io
  {
    if io.closed then io else io.(inbound := io.inbound + bytes)
  }

  /** The IO object itself, updated in place by the protocol that owns it. */
  class Socket {
    var closed: bool
    var inbound: seq<byte>
    var outbound: seq<byte>

    /** A freshly accepted, open socket whose peer has already sent `pending`. */
    constructor (pending: seq<byte>)
      ensures Snapshot() == SocketState(false, pending, [])
    {
      closed, inbound, outbound := false, pending, [];
    }

    function Snapshot(): SocketState
      reads this
    {
      SocketState(closed, inbound, outbound)
    }

    method Close()
      modifies this
      ensures Snapshot() == CloseSocket(old(Snapshot()))
    {
      closed := true;
    }

    method RecvNonblock(size: nat, fault: bool) returns (r: RecvResult)
      requires size > 0
      modifies this
      ensures (r, Snapshot()) == Recv(old(Snapshot()), size, fault)
    {
      if closed || fault {
        r := RecvError;
      } else if inbound == [] {
        r := WouldBlock;
      } else {
        var n := Min(size, |inbound|);
        r := Received(inbound[..n]);
        inbound := inbound[n..];
      }
    }

    method Write(data: seq<byte>, failAfter: Option<nat>) returns (r: WriteResult)
      modifies this
      ensures (r, Snapshot()) == WriteOut(old(Snapshot()), data, failAfter)
    {
      if closed {
        r := WriteError;
      } else if failAfter.Some? {
        outbound := outbound + data[..Min(failAfter.value, |data|)];
        r := WriteError;
      } else {
        outbound := outbound + data;
        r := Written(|data|);
      }
    }
  }
}
